=== FILE: README.md ===
# Wallet provider session model

A Dafny model of the session state machine of the Archethic wallet provider
(`src/WalletProvider.tsx`). The provider keeps one session record: the wallet
client, the endpoint the wallet reported, a connected flag, the current
account and the last fetched account list. It exposes five operations:
`initialize`, `connect`, `getAccounts`, `disconnect` and `sendTransaction`.

- `wallet_state.dfy` (module `WalletState`) holds the session record, the five
  reducer actions and the reducer `Apply`. The reducer is described
  independently by the fields each action writes (`Writes`) and the values it
  installs (`Installs`). `ApplyIsTransition` proves that this description
  determines the reducer exactly. `ApplyAll` folds the reducer over a list of
  actions.
- `wallet_client.dfy` (module `WalletClient`) treats the wallet client as an
  oracle. Each request gets a `Reply`, either `Answered(value)` or
  `Rejected(reason)`. Every request issued is recorded as a `Call` addressed to
  one client.
- `wallet_controller.dfy` (module `WalletController`) holds the three guards
  and the operations. Each operation is a function from a `Provider` and the
  client's replies to a `Step`. A `Step` holds the result, the next provider,
  the client requests in order and the dispatched actions in order. The
  account-change callback that `connect` registers is the event
  `AccountCallback`.
- `wallet_traces.dfy` (module `WalletTraces`) runs sequences of operations and
  callbacks. It proves the reachable-state invariant, the guard properties over
  whole runs and the end-to-end scenario.

Constructing a client (`new Archethic(...)`) is modelled by a counter in
`Provider`: `initialize` takes client number `created` and increments the
counter. Every operation is atomic. The client's answers are parameters, so
the model is deterministic.

Two properties one might expect of the session do not hold in the code, and
the model follows the code:

- A current account does not imply a connection. The account-change callback
  is never unregistered, and the reducer accepts an account change in any
  state. `WalletTraces.AccountWithoutConnection` exhibits a reachable state
  with a current account and no connection. In that run, the callback comes
  from a client that was never closed, so the result does not depend on what
  a client does after `close()`.
- A client failure does not always reach the caller. `disconnect` does not
  await `close()`, so a rejected close never reaches the caller. The model's
  `Disconnect` reports success in that case and leaves the session unchanged.

## Model

| member | source | states |
|---|---|---|
| WalletState.InitialState | src/WalletProvider.tsx:57-60 | the initial session has no client and an empty account list, and is already in the disconnected shape (no endpoint, not connected, no current account) |
| WalletState.Apply | src/WalletProvider.tsx:71-108 | each action installs its payload in the fields it writes and leaves every other field as it was: INITIALIZE only the client, CONNECT the endpoint and the flag, CURRENT_ACCOUNT_CHANGED the current account, GET_ACCOUNTS the list, DISCONNECT clears endpoint, flag and current account |
| WalletState.ApplyIsTransition | src/WalletProvider.tsx:71-108 | a state is the reducer's answer if and only if it installs what the action installs and agrees with the prior state on every unwritten field |
| WalletState.Absorbs | src/WalletProvider.tsx:73-108 | an action followed by one that writes a superset of its fields is the same as the second action alone (last writer wins) |
| WalletState.DisjointActionsCommute | src/WalletProvider.tsx:73-108 | two actions writing disjoint fields give the same state in either order |
| WalletState.AccountChangeOverwrites | src/WalletProvider.tsx:88-93 | account changes A then B leave current account B and no trace of A |
| WalletState.AccountsFetchReplaces | src/WalletProvider.tsx:95-100 | fetching [x,y] then [z] leaves exactly [z]: the snapshot is replaced, not appended to |
| WalletState.DisconnectIdempotent | src/WalletProvider.tsx:101-108 | disconnecting twice equals disconnecting once, and a disconnect keeps the client and the accounts |
| WalletState.ApplyAll | src/WalletProvider.tsx:123 | folding the reducer over actions keeps every field none of them writes, and never loses a client |
| WalletController.Fresh | src/WalletProvider.tsx:122-123 | a new provider starts from the initial state with no registered callbacks, no constructed client and the configured origin, and satisfies the reachable-state invariant |
| WalletController.EnsureInitialized | src/WalletProvider.tsx:125-129 | passes exactly when a client is present, otherwise fails with NotInitialized |
| WalletController.EnsureConnected | src/WalletProvider.tsx:131-135 | passes exactly when connected, otherwise fails with NotConnected |
| WalletController.EnsureInitializedAndConnected | src/WalletProvider.tsx:137-140 | passes exactly when a client is present and connected; a missing client is reported as NotInitialized even when the flag is set, so the initialization check comes first |
| WalletController.Initialize | src/WalletProvider.tsx:142-151 | always succeeds; constructs a new client on ws://localhost:12345, hands it the origin, makes it the session's client by dispatching exactly INITIALIZE, keeps the old callbacks registered, and the new client has none |
| WalletController.Connect | src/WalletProvider.tsx:153-181 | fails with NotInitialized and no request without a client; otherwise asks connect, then getEndpoint, then registers the callback; a rejection of connect or getEndpoint stops the operation right there, is reported as that client failure and dispatches nothing; on success it returns Done, exactly CONNECT with the reported endpoint is dispatched and the callback is registered; no client is constructed |
| WalletController.GetAccounts | src/WalletProvider.tsx:183-194 | guard failure issues no request; on success it dispatches exactly GET_ACCOUNTS with the fetched list and returns that list; a rejection is reported as that client failure and leaves the session unchanged |
| WalletController.Disconnect | src/WalletProvider.tsx:196-204 | guard failure issues no request; otherwise it returns Done; a completed close clears endpoint, flag and current account; the client and accounts are always kept; a rejected close is not reported, dispatches nothing and changes nothing |
| WalletController.SendTransaction | src/WalletProvider.tsx:206-209 | never changes the provider and dispatches nothing; forwards the transaction once after both guards and returns the client's answer, its receipt on success and its rejection as a client failure |
| WalletController.AccountCallback | src/WalletProvider.tsx:169-177 | returns Done; a callback registered on that client dispatches exactly CURRENT_ACCOUNT_CHANGED, whatever the connection state; for an unregistered client the provider is unchanged and nothing is dispatched; no request is made |
| WalletTraces.Exec | src/WalletProvider.tsx:217-225 | every operation dispatches at most one action, explains its state change by the dispatched actions, leaves the provider untouched on failure and keeps the reachable-state invariant |
| WalletTraces.RunPreservesWellFormed | src/WalletProvider.tsx:153-165 | every run from a well-formed provider ends in a well-formed one: connected implies a client, and all known clients were constructed |
| WalletTraces.ReachableConnectedHasClient | src/WalletProvider.tsx:125-128 | in every state reachable from a fresh provider, a connection implies a client |
| WalletTraces.RunReplaysDispatched | src/WalletProvider.tsx:123 | the state after any run is the reducer folded over exactly the actions dispatched during it, in order |
| WalletTraces.NothingBeforeInitialize | src/WalletProvider.tsx:125-129 | a run without initialize leaves the fresh provider unchanged, issues no client request and dispatches nothing |
| WalletTraces.RequestBeforeInitializeFails | src/WalletProvider.tsx:137-140 | before any initialize, connect, getAccounts, disconnect and sendTransaction fail with NotInitialized and issue no request |
| WalletTraces.InitializedStaysInitialized | src/WalletProvider.tsx:101-108 | once a run has initialized the provider, it has a client from then on |
| WalletTraces.RunSnoc | src/WalletProvider.tsx:123 | running one more operation after a run is one more step from the run's provider |
| WalletTraces.RunAppend | src/WalletProvider.tsx:123 | running two lists of operations one after the other is running their concatenation |
| WalletTraces.StaysDisconnected | src/WalletProvider.tsx:80-86 | without a connect whose replies succeed, a disconnected provider stays disconnected |
| WalletTraces.InitializedFresh | src/WalletProvider.tsx:142-151 | a fresh provider that has just been initialized has a client and is not connected |
| WalletTraces.SkipBeforeInitialize | src/WalletProvider.tsx:125-129 | operations before the first initialize have no effect, so the run continues from a freshly initialized provider |
| WalletTraces.InitializedNotConnected | src/WalletProvider.tsx:80-86 | after the first initialize and without a later connect whose replies succeed, the provider has a client and no connection |
| WalletTraces.RequestBeforeConnectFails | src/WalletProvider.tsx:131-140 | after the first initialize and without a later connect whose replies succeed, getAccounts, disconnect and sendTransaction fail with NotConnected and issue no request; operations before the first initialize are unrestricted |
| WalletTraces.ConnectThenDisconnect | src/WalletProvider.tsx:101-108 | connect then disconnect clears endpoint, flag and current account and restores the state otherwise, keeping client and accounts |
| WalletTraces.SessionScenario | src/WalletProvider.tsx:153-204 | initialize, connect to ws://127.0.0.1:9999, fetch [0xA], disconnect: connected to that endpoint, returned and stored [0xA], then disconnected with no current account and [0xA] still cached |
| WalletTraces.StaleCallbackOutcome | src/WalletProvider.tsx:169-177 | after connect on the first client, a second initialize and a disconnect, the first client's callback still sets the current account, and the session stays disconnected |
| WalletTraces.StaleCallbackRunSteps | src/WalletProvider.tsx:123 | running that five-operation list is applying its operations one after another |
| WalletTraces.AccountWithoutConnection | src/WalletProvider.tsx:169-177 | initialize, connect, initialize a second client, disconnect it, then a callback from the first client, which was never closed: the session has a current account but no connection |
| WalletTraces.Replay | src/WalletProvider.tsx:123 | stepping through a run reaches the same provider, request log and dispatched actions as the run, the state is the fold of those actions, and a connection implies a client |

## Left out

- The reducer's `default` branch: the action union is closed, so it cannot be reached.
- React rendering and hooks: the context's default values, the provider element, the `useEffect` auto-initialize flag and `src/useWallet.tsx` (a context lookup).
- The client's internals: construction, `setOrigin`, `connect`, `close`, `getEndpoint`, `getAccounts`, `sendTransaction` and `onCurrentAccountChange` appear only as recorded requests with oracle replies.
- The client's `rpcWallet` is assumed present; the optional chaining on it is not modelled.
- URL parsing of the reported endpoint: the endpoint is an opaque string. A parse failure would behave like a rejected `getEndpoint`.
- Logging through `console.*`.
- Asynchrony and concurrency: overlapping operations, guards reading a stale state, and the unawaited `close()` in `disconnect`. Each operation is one atomic step.
- Error messages: a guard failure is the error kind `NotInitialized` or `NotConnected`, not the message text.
- Whether the client keeps one callback or several after repeated connects is client-internal. The model keeps a set of registered clients. `Absorbs` shows that delivering the same account change more than once has the effect of delivering it once.

=== FILE: wallet_client.dfy ===
/** The wallet client as the session sees it: an oracle that answers each
    request with a value or a rejection, and a record of the requests it
    receives. Nothing of the client's transport is modelled. */
module WalletClient {
  import opened WalletState

  /** The request-origin descriptor handed to the client, forwarded verbatim. */
  type Origin = string

  /** A transaction payload, forwarded verbatim. */
  type Transaction = string

  /** What the wallet reports after sending a transaction. */
  type Receipt = string

  /** The client's answer to one request. */
  datatype Reply<+T> = Answered(value: T) | Rejected(reason: string)

  /** The requests the session can make of a client, including its construction. */
  datatype Request =
    | Construct(endpoint: string)
    | SetOrigin(origin: Origin)
    | Connect
    | GetEndpoint
    | OnCurrentAccountChange
    | GetAccounts
    | Close
    | SendTransaction(transaction: Transaction)

  /** One request, addressed to one client. */
  datatype Call = Call(client: ClientId, request: Request)
}

=== FILE: wallet_controller.dfy ===
/** The wallet provider's operations: readiness guards, then at most one
    chain of client requests, then at most one dispatched action
    (src/WalletProvider.tsx, WalletProvider). Every operation is atomic here. */
module WalletController {
  import opened Wrappers
  import S = WalletState
  import C = WalletClient

  /** The fixed local address every client is constructed with. */
  const WALLET_RPC_ENDPOINT: string := "ws://localhost:12345"

  /** Why an operation failed: one of the two guards, or a rejection by the client. */
  datatype Error = NotInitialized | NotConnected | ClientFailure(reason: string)

  /** The provider: the reducer's state, the clients on which an
      account-change callback is registered (never unregistered), the
      number of clients constructed so far, and the configured origin. */
  datatype Provider = Provider(
    state: S.State,
    listeners: set<S.ClientId>,
    created: nat,
    origin: C.Origin)

  /** What an operation hands back to its caller. */
  datatype Value = Done | AccountList(accounts: seq<S.Account>) | Sent(receipt: C.Receipt)

  /** One operation: its result, the provider afterwards, the client requests
      it issued in order, and the actions it dispatched in order. */
  datatype Step = Step(
    result: Result<Value, Error>,
    next: Provider,
    calls: seq<C.Call>,
    dispatched: seq<S.Action>)

  /** A provider nobody has used yet. */
  function Fresh(origin: C.Origin): (p: Provider)
    ensures WellFormed(p) && p.listeners == {}
    ensures p.state == S.InitialState()
    ensures p.origin == origin && p.created == 0
  {
    Provider(S.InitialState(), {}, 0, origin)
  }

  /** The invariant of reachable providers: a connection implies a client,
      and every client the provider knows about has been constructed. */
  predicate WellFormed(p: Provider)
  {
    && (p.state.isConnected ==> p.state.client.Some?)
    && (p.state.client.Some? ==> p.state.client.value < p.created)
    && (forall c | c in p.listeners :: c < p.created)
  }

  /** What every operation keeps: the state changes only through the
      dispatched actions, at most one is dispatched, the origin stays, and a
      failed operation dispatches nothing and leaves the provider untouched. */
  predicate Coherent(p: Provider, r: Step)
  {
    && |r.dispatched| <= 1
    && r.next.state == S.ApplyAll(p.state, r.dispatched)
    && r.next.origin == p.origin
    && (r.result.Failure? ==> r.dispatched == [] && r.next == p)
  }

  /** Every request of `r` went to the provider's current client. */
  predicate ToCurrentClient(p: Provider, r: Step)
  {
    forall k | 0 <= k < |r.calls| :: p.state.client == Some(r.calls[k].client)
  }

  /** When guard `g` fails, the operation fails with its error before any
      request or dispatch. */
  predicate StopsAt(g: Outcome<Error>, p: Provider, r: Step)
  {
    g.Fail? ==> r == Step(Failure(g.error), p, [], [])
  }

  function EnsureInitialized(s: S.State): (r: Outcome<Error>)
    ensures r.Pass? <==> s.client.Some?
    ensures r.Fail? ==> r.error == NotInitialized
  {
    if s.client.None? then Fail(NotInitialized) else Pass
  }

  function EnsureConnected(s: S.State): (r: Outcome<Error>)
    ensures r.Pass? <==> s.isConnected
    ensures r.Fail? ==> r.error == NotConnected
  {
    if !s.isConnected then Fail(NotConnected) else Pass
  }

  /** Both checks, the initialization check first. */
  function EnsureInitializedAndConnected(s: S.State): (r: Outcome<Error>)
    ensures r.Pass? <==> s.client.Some? && s.isConnected
    ensures s.client.None? ==> r == Fail(NotInitialized)
    ensures s.client.Some? && !s.isConnected ==> r == Fail(NotConnected)
  {
    match EnsureInitialized(s)
    case Fail(e) => Fail(e)
    case Pass => EnsureConnected(s)
  }

  /** Constructs a new client on the fixed endpoint, hands it the origin and
      makes it the provider's client. The previous client, and any callback
      registered on it, is left as it is. */
  function Initialize(p: Provider): (r: Step)
    ensures Coherent(p, r) && r.result == Success(Done)
    ensures r.next.state.client == Some(p.created) && r.next.created == p.created + 1
    ensures r.next.listeners == p.listeners
    ensures r.dispatched == [S.Initialize(p.created)]
    ensures r.calls == [C.Call(p.created, C.Construct(WALLET_RPC_ENDPOINT)), C.Call(p.created, C.SetOrigin(p.origin))]
    ensures WellFormed(p) ==> WellFormed(r.next) && p.created !in r.next.listeners
  {
    var c := p.created;
    var a := S.Initialize(c);
    assert [a][..0] == [];
    Step(Success(Done),
         p.(state := S.Apply(p.state, a), created := c + 1),
         [C.Call(c, C.Construct(WALLET_RPC_ENDPOINT)), C.Call(c, C.SetOrigin(p.origin))],
         [a])
  }

  /** The requests a successful connect issues to client `c`, in order. */
  function ConnectRequests(c: S.ClientId): seq<C.Call>
  {
    [C.Call(c, C.Connect), C.Call(c, C.GetEndpoint), C.Call(c, C.OnCurrentAccountChange)]
  }

  /** Connects the client, asks it for its endpoint, records the connection,
      then registers the account-change callback. A rejection at any step
      stops the operation there, with nothing dispatched or registered. */
  function Connect(p: Provider, connectReply: C.Reply<()>, endpointReply: C.Reply<S.Endpoint>): (r: Step)
    ensures Coherent(p, r) && ToCurrentClient(p, r)
    ensures StopsAt(EnsureInitialized(p.state), p, r)
    ensures r.result.Success? <==> p.state.client.Some? && connectReply.Answered? && endpointReply.Answered?
    ensures r.result.Success? ==> r.result == Success(Done)
    ensures r.next.created == p.created
    ensures p.state.client.Some? ==> r.calls <= ConnectRequests(p.state.client.value)
    ensures p.state.client.Some? && connectReply.Answered? ==> |r.calls| >= 2
    ensures p.state.client.Some? && connectReply.Rejected? ==>
      && r.calls == ConnectRequests(p.state.client.value)[..1]
      && r.result == Failure(ClientFailure(connectReply.reason))
    ensures p.state.client.Some? && connectReply.Answered? && endpointReply.Rejected? ==>
      && r.calls == ConnectRequests(p.state.client.value)[..2]
      && r.result == Failure(ClientFailure(endpointReply.reason))
    ensures r.result.Success? ==> r.dispatched == [S.Connect(endpointReply.value)]
    ensures r.result.Success? ==>
      && r.next.state.isConnected
      && r.next.state.walletEndpoint == Some(endpointReply.value)
      && |r.calls| == 3
      && r.next.listeners == p.listeners + {p.state.client.value}
    ensures WellFormed(p) ==> WellFormed(r.next)
  {
    match EnsureInitialized(p.state)
    case Fail(e) => Step(Failure(e), p, [], [])
    case Pass =>
      var c := p.state.client.value;
      match connectReply
      case Rejected(why) => Step(Failure(ClientFailure(why)), p, ConnectRequests(c)[..1], [])
      case Answered(_) =>
        match endpointReply
        case Rejected(why) => Step(Failure(ClientFailure(why)), p, ConnectRequests(c)[..2], [])
        case Answered(url) =>
          var a := S.Connect(url);
          assert [a][..0] == [];
          Step(Success(Done),
               p.(state := S.Apply(p.state, a), listeners := p.listeners + {c}),
               ConnectRequests(c),
               [a])
  }

  /** Fetches the account list, stores it as the new snapshot and returns it. */
  function GetAccounts(p: Provider, reply: C.Reply<seq<S.Account>>): (r: Step)
    ensures Coherent(p, r) && ToCurrentClient(p, r) && r.next.listeners == p.listeners
    ensures StopsAt(EnsureInitializedAndConnected(p.state), p, r)
    ensures r.result.Success? <==> p.state.client.Some? && p.state.isConnected && reply.Answered?
    ensures r.result.Success? ==> r.result.value == AccountList(reply.value) && r.next.state.accounts == reply.value
    ensures r.next.created == p.created
    ensures p.state.client.Some? && p.state.isConnected ==> r.calls == [C.Call(p.state.client.value, C.GetAccounts)]
    ensures r.result.Success? ==> r.dispatched == [S.GetAccounts(reply.value)]
    ensures p.state.client.Some? && p.state.isConnected && reply.Rejected? ==>
      r.result == Failure(ClientFailure(reply.reason))
    ensures WellFormed(p) ==> WellFormed(r.next)
  {
    match EnsureInitializedAndConnected(p.state)
    case Fail(e) => Step(Failure(e), p, [], [])
    case Pass =>
      var call := C.Call(p.state.client.value, C.GetAccounts);
      match reply
      case Rejected(why) => Step(Failure(ClientFailure(why)), p, [call], [])
      case Answered(xs) =>
        var a := S.GetAccounts(xs);
        assert [a][..0] == [];
        Step(Success(AccountList(xs)), p.(state := S.Apply(p.state, a)), [call], [a])
  }

  /** Asks the client to close its channel and, once it has, records the
      disconnection. The close is not awaited, so its rejection never reaches
      the caller: the operation reports success and changes nothing. */
  function Disconnect(p: Provider, reply: C.Reply<()>): (r: Step)
    ensures Coherent(p, r) && ToCurrentClient(p, r) && r.next.listeners == p.listeners
    ensures StopsAt(EnsureInitializedAndConnected(p.state), p, r)
    ensures r.result.Success? <==> p.state.client.Some? && p.state.isConnected
    ensures r.result.Success? ==> r.result == Success(Done)
    ensures r.next.created == p.created
    ensures p.state.client.Some? && p.state.isConnected ==> r.calls == [C.Call(p.state.client.value, C.Close)]
    ensures r.result.Success? && reply.Answered? ==>
      && !r.next.state.isConnected
      && r.next.state.walletEndpoint == None
      && r.next.state.currentAccount == None
    ensures reply.Rejected? ==> r.next == p && r.dispatched == []
    ensures r.next.state.client == p.state.client && r.next.state.accounts == p.state.accounts
    ensures WellFormed(p) ==> WellFormed(r.next)
  {
    match EnsureInitializedAndConnected(p.state)
    case Fail(e) => Step(Failure(e), p, [], [])
    case Pass =>
      var call := C.Call(p.state.client.value, C.Close);
      match reply
      case Rejected(_) => Step(Success(Done), p, [call], [])
      case Answered(_) =>
        var a := S.Disconnect;
        assert [a][..0] == [];
        Step(Success(Done), p.(state := S.Apply(p.state, a)), [call], [a])
  }

  /** Forwards a transaction to the client and returns the client's answer.
      Sending never changes the session. */
  function SendTransaction(p: Provider, transaction: C.Transaction, reply: C.Reply<C.Receipt>): (r: Step)
    ensures Coherent(p, r) && ToCurrentClient(p, r)
    ensures r.next == p && r.dispatched == []
    ensures StopsAt(EnsureInitializedAndConnected(p.state), p, r)
    ensures r.result.Success? <==> p.state.client.Some? && p.state.isConnected && reply.Answered?
    ensures r.result.Success? ==> r.result.value == Sent(reply.value)
    ensures p.state.client.Some? && p.state.isConnected && reply.Rejected? ==>
      r.result == Failure(ClientFailure(reply.reason))
    ensures p.state.client.Some? && p.state.isConnected ==>
      r.calls == [C.Call(p.state.client.value, C.SendTransaction(transaction))]
  {
    match EnsureInitializedAndConnected(p.state)
    case Fail(e) => Step(Failure(e), p, [], [])
    case Pass =>
      var call := C.Call(p.state.client.value, C.SendTransaction(transaction));
      match reply
      case Rejected(why) => Step(Failure(ClientFailure(why)), p, [call], [])
      case Answered(receipt) => Step(Success(Sent(receipt)), p, [call], [])
  }

  /** Client `client` reports a new current account. The callback exists only
      if a connect registered it on that client; it then dispatches the change
      whatever the connection state. */
  function AccountCallback(p: Provider, client: S.ClientId, account: S.Account): (r: Step)
    ensures Coherent(p, r) && r.result == Success(Done) && r.calls == []
    ensures r.next.listeners == p.listeners && r.next.created == p.created
    ensures r.next.state.currentAccount == if client in p.listeners then Some(account) else p.state.currentAccount
    ensures client !in p.listeners ==> r.next == p && r.dispatched == []
    ensures client in p.listeners ==> r.dispatched == [S.CurrentAccountChanged(account)]
    ensures r.next.state.isConnected == p.state.isConnected && r.next.state.client == p.state.client
    ensures WellFormed(p) ==> WellFormed(r.next)
  {
    if client in p.listeners then
      var a := S.CurrentAccountChanged(account);
      assert [a][..0] == [];
      Step(Success(Done), p.(state := S.Apply(p.state, a)), [], [a])
    else
      Step(Success(Done), p, [], [])
  }
}

=== FILE: wallet_state.dfy ===
/** The session state held by the wallet provider and the pure reducer that
    advances it (src/WalletProvider.tsx, walletState, Action and reducer). */
module WalletState {
  import opened Wrappers

  /** Identity of one constructed wallet client object. */
  type ClientId = nat

  /** The URL the wallet reports as its endpoint, kept as an opaque string. */
  type Endpoint = string

  /** An account identity reported by the wallet; the session never looks inside it. */
  datatype Account = Account(address: string)

  datatype State = State(
    client: Option<ClientId>,
    walletEndpoint: Option<Endpoint>,
    isConnected: bool,
    currentAccount: Option<Account>,
    accounts: seq<Account>)

  /** The five events the reducer accepts; the union is closed, so the
      reducer's fall-through branch has no counterpart here. */
  datatype Action =
    | Initialize(client: ClientId)
    | Connect(walletEndpoint: Endpoint)
    | CurrentAccountChanged(currentAccount: Account)
    | GetAccounts(accounts: seq<Account>)
    | Disconnect

  /** The fields of a state, used to say which of them an action touches. */
  datatype Field = ClientField | EndpointField | ConnectedField | CurrentAccountField | AccountsField

  /** The fields an action overwrites; every other field is carried over. */
  function Writes(a: Action): set<Field>
  {
    match a
    case Initialize(_) => {ClientField}
    case Connect(_) => {EndpointField, ConnectedField}
    case CurrentAccountChanged(_) => {CurrentAccountField}
    case GetAccounts(_) => {AccountsField}
    case Disconnect => {EndpointField, ConnectedField, CurrentAccountField}
  }

  /** `s` and `t` hold the same value in field `f`. */
  predicate Agree(s: State, t: State, f: Field)
  {
    match f
    case ClientField => s.client == t.client
    case EndpointField => s.walletEndpoint == t.walletEndpoint
    case ConnectedField => s.isConnected == t.isConnected
    case CurrentAccountField => s.currentAccount == t.currentAccount
    case AccountsField => s.accounts == t.accounts
  }

  /** The values action `a` leaves in the fields it writes. None of them
      depends on the state the action is applied to. */
  predicate Installs(a: Action, r: State)
  {
    match a
    case Initialize(c) => r.client == Some(c)
    case Connect(u) => r.walletEndpoint == Some(u) && r.isConnected
    case CurrentAccountChanged(acc) => r.currentAccount == Some(acc)
    case GetAccounts(xs) => r.accounts == xs
    case Disconnect => r.walletEndpoint == None && !r.isConnected && r.currentAccount == None
  }

  /** The independent description of one reducer step: `r` holds what `a`
      installs and agrees with `s` on every field `a` does not write. */
  predicate Transition(s: State, a: Action, r: State)
  {
    Installs(a, r) && forall f :: f !in Writes(a) ==> Agree(s, r, f)
  }

  /** The state a fresh provider starts from. */
  function InitialState(): (s: State)
    ensures s.client == None && s.accounts == []
    ensures Apply(s, Disconnect) == s
  {
    State(None, None, false, None, [])
  }

  /** The reducer: total and deterministic, a record update per action. */
  function Apply(s: State, a: Action): (r: State)
    ensures Transition(s, a, r)
  {
    match a
    case Initialize(c) => s.(client := Some(c))
    case Connect(u) => s.(walletEndpoint := Some(u), isConnected := true)
    case CurrentAccountChanged(acc) => s.(currentAccount := Some(acc))
    case GetAccounts(xs) => s.(accounts := xs)
    case Disconnect => s.(walletEndpoint := None, isConnected := false, currentAccount := None)
  }

  /** The description pins the reducer down: `r` is the reducer's answer
      exactly when it installs what `a` installs and keeps everything else. */
  lemma ApplyIsTransition(s: State, a: Action, r: State)
    ensures r == Apply(s, a) <==> Transition(s, a, r)
  {
    if Transition(s, a, r) {
      var t := Apply(s, a);
      assert Transition(s, a, t);
      forall f: Field
        ensures Agree(r, t, f)
      {
        if f !in Writes(a) {
          assert Agree(s, r, f) && Agree(s, t, f);
        }
      }
      assert Agree(r, t, ClientField) && Agree(r, t, EndpointField) && Agree(r, t, ConnectedField);
      assert Agree(r, t, CurrentAccountField) && Agree(r, t, AccountsField);
    }
  }

  /** A later action that writes every field an earlier one wrote erases the
      earlier one completely (last writer wins). */
  lemma Absorbs(s: State, a: Action, b: Action)
    requires Writes(a) <= Writes(b)
    ensures Apply(Apply(s, a), b) == Apply(s, b)
  {
  }

  /** Actions that write disjoint fields commute. */
  lemma DisjointActionsCommute(s: State, a: Action, b: Action)
    requires Writes(a) !! Writes(b)
    ensures Apply(Apply(s, a), b) == Apply(Apply(s, b), a)
  {
  }

  /** A second account change overwrites the first: nothing of `first` survives. */
  lemma AccountChangeOverwrites(s: State, first: Account, second: Account)
    ensures Apply(Apply(s, CurrentAccountChanged(first)), CurrentAccountChanged(second))
         == Apply(s, CurrentAccountChanged(second))
    ensures Apply(Apply(s, CurrentAccountChanged(first)), CurrentAccountChanged(second)).currentAccount
         == Some(second)
  {
  }

  /** A fetched account list replaces the cached snapshot; it is never appended to it. */
  lemma AccountsFetchReplaces(s: State, older: seq<Account>, newer: seq<Account>)
    ensures Apply(Apply(s, GetAccounts(older)), GetAccounts(newer)) == Apply(s, GetAccounts(newer))
    ensures Apply(Apply(s, GetAccounts(older)), GetAccounts(newer)).accounts == newer
  {
  }

  /** Disconnecting twice is the same as disconnecting once, and a disconnect
      keeps the client and the cached accounts. */
  lemma DisconnectIdempotent(s: State)
    ensures Apply(Apply(s, Disconnect), Disconnect) == Apply(s, Disconnect)
    ensures Apply(s, Disconnect).client == s.client && Apply(s, Disconnect).accounts == s.accounts
  {
  }

  /** `f` is written by none of the actions in `acts`. */
  predicate Untouched(acts: seq<Action>, f: Field)
  {
    forall i | 0 <= i < |acts| :: f !in Writes(acts[i])
  }

  /** The reducer folded over a sequence of actions, in order. */
  function ApplyAll(s: State, acts: seq<Action>): (r: State)
    ensures forall f :: Untouched(acts, f) ==> Agree(s, r, f)
    ensures s.client.Some? ==> r.client.Some?
    decreases |acts|
  {
    if acts == [] then s
    else
      var prefix := acts[..|acts| - 1];
      assert forall f :: Untouched(acts, f) ==> Untouched(prefix, f);
      Apply(ApplyAll(s, prefix), acts[|acts| - 1])
  }
}

=== FILE: wallet_traces.dfy ===
/** Sequences of provider operations, interleaved with account-change
    callbacks from the wallet, and the properties every such run keeps. */
module WalletTraces {
  import opened Wrappers
  import S = WalletState
  import C = WalletClient
  import W = WalletController

  /** One thing that can happen to a provider, together with the replies the
      client gives to the requests it causes. */
  datatype Op =
    | Initialize
    | Connect(connectReply: C.Reply<()>, endpointReply: C.Reply<S.Endpoint>)
    | GetAccounts(accountsReply: C.Reply<seq<S.Account>>)
    | Disconnect(closeReply: C.Reply<()>)
    | SendTransaction(transaction: C.Transaction, sendReply: C.Reply<C.Receipt>)
    | AccountCallback(client: S.ClientId, account: S.Account)
  {
    /** An operation a caller invokes that needs a client before it may talk to it. */
    predicate NeedsClient()
    {
      Connect? || GetAccounts? || Disconnect? || SendTransaction?
    }

    /** An operation that also needs a live connection. */
    predicate NeedsConnection()
    {
      GetAccounts? || Disconnect? || SendTransaction?
    }

    /** A connect whose client replies would let it succeed. */
    predicate MayConnect()
    {
      Connect? && connectReply.Answered? && endpointReply.Answered?
    }
  }

  /** Runs one operation against the provider. */
  function Exec(p: W.Provider, op: Op): (r: W.Step)
    ensures W.Coherent(p, r)
    ensures W.WellFormed(p) ==> W.WellFormed(r.next)
    ensures !op.Initialize? ==> r.next.created == p.created
    ensures op.NeedsClient() ==> W.StopsAt(W.EnsureInitialized(p.state), p, r)
    ensures op.NeedsConnection() ==> W.StopsAt(W.EnsureInitializedAndConnected(p.state), p, r)
    ensures !op.MayConnect() && !p.state.isConnected ==> !r.next.state.isConnected
  {
    match op
    case Initialize => W.Initialize(p)
    case Connect(cr, er) => W.Connect(p, cr, er)
    case GetAccounts(ar) => W.GetAccounts(p, ar)
    case Disconnect(cr) => W.Disconnect(p, cr)
    case SendTransaction(tx, sr) => W.SendTransaction(p, tx, sr)
    case AccountCallback(c, acc) => W.AccountCallback(p, c, acc)
  }

  /** The provider after running `ops` in order. */
  function Run(p: W.Provider, ops: seq<Op>): W.Provider
    decreases |ops|
  {
    if ops == [] then p else Exec(Run(p, ops[..|ops| - 1]), ops[|ops| - 1]).next
  }

  /** Every client request issued while running `ops`, in order. */
  function Calls(p: W.Provider, ops: seq<Op>): seq<C.Call>
    decreases |ops|
  {
    if ops == [] then []
    else
      var prefix := ops[..|ops| - 1];
      Calls(p, prefix) + Exec(Run(p, prefix), ops[|ops| - 1]).calls
  }

  /** Every action dispatched while running `ops`, in order. */
  function Dispatched(p: W.Provider, ops: seq<Op>): seq<S.Action>
    decreases |ops|
  {
    if ops == [] then []
    else
      var prefix := ops[..|ops| - 1];
      Dispatched(p, prefix) + Exec(Run(p, prefix), ops[|ops| - 1]).dispatched
  }

  /** Folding the reducer over a list that ends in at most one more action. */
  lemma ApplyAllSnoc(s: S.State, acts: seq<S.Action>, tail: seq<S.Action>)
    requires |tail| <= 1
    ensures S.ApplyAll(s, acts + tail) == S.ApplyAll(S.ApplyAll(s, acts), tail)
  {
    if tail == [] {
      assert acts + tail == acts;
    } else {
      assert (acts + tail)[..|acts + tail| - 1] == acts;
      assert tail[..0] == [];
    }
  }

  /** The invariant holds in every state a run reaches. */
  lemma {:induction false} RunPreservesWellFormed(p: W.Provider, ops: seq<Op>)
    requires W.WellFormed(p)
    ensures W.WellFormed(Run(p, ops))
    decreases |ops|
  {
    if ops != [] {
      RunPreservesWellFormed(p, ops[..|ops| - 1]);
    }
  }

  /** In every state reachable from a fresh provider, a connection implies a client. */
  lemma ReachableConnectedHasClient(origin: C.Origin, ops: seq<Op>)
    ensures Run(W.Fresh(origin), ops).state.isConnected ==> Run(W.Fresh(origin), ops).state.client.Some?
  {
  }

  /** No event is dropped or reordered: the session state after a run is the
      reducer folded over exactly the actions the run dispatched. */
  lemma {:induction false} RunReplaysDispatched(p: W.Provider, ops: seq<Op>)
    ensures Run(p, ops).state == S.ApplyAll(p.state, Dispatched(p, ops))
    decreases |ops|
  {
    if ops != [] {
      var prefix := ops[..|ops| - 1];
      RunReplaysDispatched(p, prefix);
      var step := Exec(Run(p, prefix), ops[|ops| - 1]);
      ApplyAllSnoc(p.state, Dispatched(p, prefix), step.dispatched);
    }
  }

  /** Until something initializes the provider, nothing happens at all: every
      operation fails at its guard, no client is asked anything, and no
      callback can exist. */
  lemma {:induction false} NothingBeforeInitialize(origin: C.Origin, ops: seq<Op>)
    requires Initialize !in ops
    ensures Run(W.Fresh(origin), ops) == W.Fresh(origin)
    ensures Calls(W.Fresh(origin), ops) == []
    ensures Dispatched(W.Fresh(origin), ops) == []
    decreases |ops|
  {
    if ops != [] {
      var prefix := ops[..|ops| - 1];
      assert Initialize !in prefix by {
        forall i | 0 <= i < |prefix| ensures prefix[i] != Initialize {
          assert prefix[i] == ops[i];
        }
      }
      NothingBeforeInitialize(origin, prefix);
      assert ops[|ops| - 1] in ops;
    }
  }

  /** Before the first initialize, connect, getAccounts, disconnect and
      sendTransaction fail with NotInitialized and make no client request. */
  lemma RequestBeforeInitializeFails(origin: C.Origin, ops: seq<Op>, op: Op)
    requires Initialize !in ops
    requires op.NeedsClient()
    ensures Exec(Run(W.Fresh(origin), ops), op).result == Failure(W.NotInitialized)
    ensures Exec(Run(W.Fresh(origin), ops), op).calls == []
  {
  }

  /** Once initialized, a provider keeps a client for good. */
  lemma {:induction false} InitializedStaysInitialized(p: W.Provider, ops: seq<Op>)
    requires Initialize in ops
    ensures Run(p, ops).state.client.Some?
    decreases |ops|
  {
    var last := ops[|ops| - 1];
    var prefix := ops[..|ops| - 1];
    var step := Exec(Run(p, prefix), last);
    if last != Initialize {
      assert Initialize in prefix by {
        var i :| 0 <= i < |ops| && ops[i] == Initialize;
        assert i < |prefix| && prefix[i] == Initialize;
      }
      InitializedStaysInitialized(p, prefix);
      assert step.next.state == S.ApplyAll(Run(p, prefix).state, step.dispatched);
    }
  }

  /** Without a connect that can succeed, a disconnected provider stays disconnected. */
  lemma {:induction false} StaysDisconnected(p: W.Provider, ops: seq<Op>)
    requires !p.state.isConnected
    requires forall i | 0 <= i < |ops| :: !ops[i].MayConnect()
    ensures !Run(p, ops).state.isConnected
    decreases |ops|
  {
    if ops != [] {
      StaysDisconnected(p, ops[..|ops| - 1]);
    }
  }

  /** Running one more operation after a run is one more step. */
  lemma RunSnoc(p: W.Provider, ops: seq<Op>, op: Op)
    ensures Run(p, ops + [op]) == Exec(Run(p, ops), op).next
  {
  }

  /** Running `first` and then `second` is running their concatenation. */
  lemma {:induction false} RunAppend(p: W.Provider, first: seq<Op>, second: seq<Op>)
    ensures Run(p, first + second) == Run(Run(p, first), second)
    decreases |second|
  {
    if second == [] {
      assert first + second == first;
    } else {
      var shorter := second[..|second| - 1];
      var last := second[|second| - 1];
      assert second == shorter + [last];
      assert first + second == (first + shorter) + [last];
      RunAppend(p, first, shorter);
      RunSnoc(p, first + shorter, last);
      RunSnoc(Run(p, first), shorter, last);
    }
  }

  /** A fresh provider that has just been initialized has a client and no connection. */
  lemma InitializedFresh(origin: C.Origin)
    ensures Run(W.Fresh(origin), [Initialize]).state.client.Some?
    ensures !Run(W.Fresh(origin), [Initialize]).state.isConnected
  {
  }

  /** Operations before the first initialize have no effect, so a run that
      passes through its first initialize continues from a freshly
      initialized provider. */
  lemma SkipBeforeInitialize(origin: C.Origin, before: seq<Op>, after: seq<Op>)
    requires Initialize !in before
    ensures Run(W.Fresh(origin), before + [Initialize] + after)
         == Run(Run(W.Fresh(origin), [Initialize]), after)
  {
    var start := W.Fresh(origin);
    var rest := [Initialize] + after;
    NothingBeforeInitialize(origin, before);
    assert before + [Initialize] + after == before + rest;
    RunAppend(start, before, rest);
    RunAppend(start, [Initialize], after);
  }

  /** After the first initialize and without a later connect that can
      succeed, the provider has a client and no connection. */
  lemma {:induction false} InitializedNotConnected(origin: C.Origin, before: seq<Op>, after: seq<Op>)
    requires Initialize !in before
    requires forall i | 0 <= i < |after| :: !after[i].MayConnect()
    ensures Run(W.Fresh(origin), before + [Initialize] + after).state.client.Some?
    ensures !Run(W.Fresh(origin), before + [Initialize] + after).state.isConnected
  {
    var q := Run(W.Fresh(origin), [Initialize]);
    SkipBeforeInitialize(origin, before, after);
    InitializedFresh(origin);
    RunReplaysDispatched(q, after);
    StaysDisconnected(q, after);
  }

  /** After the first initialize and before any successful connect,
      getAccounts, disconnect and sendTransaction fail with NotConnected and
      make no client request. Operations before the first initialize are
      unrestricted: they all fail at their guards. */
  lemma RequestBeforeConnectFails(origin: C.Origin, before: seq<Op>, after: seq<Op>, op: Op)
    requires Initialize !in before
    requires forall i | 0 <= i < |after| :: !after[i].MayConnect()
    requires op.NeedsConnection()
    ensures Exec(Run(W.Fresh(origin), before + [Initialize] + after), op).result == Failure(W.NotConnected)
    ensures Exec(Run(W.Fresh(origin), before + [Initialize] + after), op).calls == []
  {
    InitializedNotConnected(origin, before, after);
  }

  /** Connecting and then disconnecting clears the endpoint, the connection
      and the current account, and keeps the client and the accounts snapshot. */
  lemma ConnectThenDisconnect(p: W.Provider, url: S.Endpoint)
    requires p.state.client.Some?
    ensures
      var connected := W.Connect(p, C.Answered(()), C.Answered(url)).next;
      var after := W.Disconnect(connected, C.Answered(())).next.state;
      && after == p.state.(walletEndpoint := None, isConnected := false, currentAccount := None)
      && after.client == p.state.client
      && after.accounts == p.state.accounts
  {
  }

  /** The session lifecycle end to end: initialize, connect to a wallet at a
      given endpoint, fetch one account, disconnect. */
  lemma SessionScenario(origin: C.Origin)
    ensures
      var url := "ws://127.0.0.1:9999";
      var a := S.Account("0xA");
      var p0 := W.Fresh(origin);
      var p1 := W.Initialize(p0).next;
      var p2 := W.Connect(p1, C.Answered(()), C.Answered(url)).next;
      var fetched := W.GetAccounts(p2, C.Answered([a]));
      var p4 := W.Disconnect(fetched.next, C.Answered(())).next;
      && p2.state.isConnected && p2.state.walletEndpoint == Some(url)
      && fetched.result == Success(W.AccountList([a]))
      && fetched.next.state.accounts == [a]
      && !p4.state.isConnected && p4.state.currentAccount == None
      && p4.state.accounts == [a]
  {
  }

  /** The operations of `StaleCallbackRun`, applied one after another. */
  function StaleCallbackSteps(origin: C.Origin): W.Provider
  {
    var p1 := W.Initialize(W.Fresh(origin)).next;
    var p2 := W.Connect(p1, C.Answered(()), C.Answered("ws://127.0.0.1:9999")).next;
    var p3 := W.Initialize(p2).next;
    var p4 := W.Disconnect(p3, C.Answered(())).next;
    W.AccountCallback(p4, 0, S.Account("0xB")).next
  }

  /** Connect on the first client, move to a second client, disconnect it,
      then let the first client report an account. The first client is never
      closed. */
  function StaleCallbackRun(): seq<Op>
  {
    [Initialize, Connect(C.Answered(()), C.Answered("ws://127.0.0.1:9999")),
     Initialize, Disconnect(C.Answered(())), AccountCallback(0, S.Account("0xB"))]
  }

  /** The callback of the first client outlives both re-initialization and
      disconnection: it still sets the current account. */
  lemma StaleCallbackOutcome(origin: C.Origin)
    ensures StaleCallbackSteps(origin).state.currentAccount == Some(S.Account("0xB"))
    ensures !StaleCallbackSteps(origin).state.isConnected
  {
  }

  /** Running `StaleCallbackRun` is applying its operations one after another. */
  lemma StaleCallbackRunSteps(origin: C.Origin)
    ensures Run(W.Fresh(origin), StaleCallbackRun()) == StaleCallbackSteps(origin)
  {
    var ops := StaleCallbackRun();
    var p0 := W.Fresh(origin);
    var p1 := W.Initialize(p0).next;
    var p2 := W.Connect(p1, C.Answered(()), C.Answered("ws://127.0.0.1:9999")).next;
    var p3 := W.Initialize(p2).next;
    var p4 := W.Disconnect(p3, C.Answered(())).next;
    RunSnoc(p0, [], ops[0]);
    assert [] + [ops[0]] == ops[..1];
    assert Run(p0, ops[..1]) == p1;
    RunSnoc(p0, ops[..1], ops[1]);
    assert ops[..1] + [ops[1]] == ops[..2];
    assert Run(p0, ops[..2]) == p2;
    RunSnoc(p0, ops[..2], ops[2]);
    assert ops[..2] + [ops[2]] == ops[..3];
    assert Run(p0, ops[..3]) == p3;
    RunSnoc(p0, ops[..3], ops[3]);
    assert ops[..3] + [ops[3]] == ops[..4];
    assert Run(p0, ops[..4]) == p4;
    RunSnoc(p0, ops[..4], ops[4]);
    assert ops[..4] + [ops[4]] == ops;
  }

  /** A callback left registered by an earlier connect still delivers account
      changes after the session has moved to a new client and disconnected, so
      a current account without a connection is reachable. The client whose
      callback fires is never closed. */
  lemma AccountWithoutConnection(origin: C.Origin)
    ensures
      var p := Run(W.Fresh(origin), StaleCallbackRun());
      && p.state.currentAccount == Some(S.Account("0xB"))
      && !p.state.isConnected
  {
    StaleCallbackRunSteps(origin);
    StaleCallbackOutcome(origin);
  }

  /** Runs `ops` on a fresh provider step by step, collecting what the client
      was asked and which actions were dispatched. */
  method Replay(origin: C.Origin, ops: seq<Op>) returns (p: W.Provider, calls: seq<C.Call>, dispatched: seq<S.Action>)
    ensures p == Run(W.Fresh(origin), ops)
    ensures calls == Calls(W.Fresh(origin), ops)
    ensures dispatched == Dispatched(W.Fresh(origin), ops)
    ensures p.state == S.ApplyAll(S.InitialState(), dispatched)
    ensures p.state.isConnected ==> p.state.client.Some?
  {
    p := W.Fresh(origin);
    calls := [];
    dispatched := [];
    var i := 0;
    while i < |ops|
      invariant 0 <= i <= |ops|
      invariant p == Run(W.Fresh(origin), ops[..i])
      invariant calls == Calls(W.Fresh(origin), ops[..i])
      invariant dispatched == Dispatched(W.Fresh(origin), ops[..i])
      invariant p.state == S.ApplyAll(S.InitialState(), dispatched)
      invariant W.WellFormed(p)
    {
      assert ops[..i + 1][..i] == ops[..i];
      var step := Exec(p, ops[i]);
      ApplyAllSnoc(S.InitialState(), dispatched, step.dispatched);
      p, calls, dispatched := step.next, calls + step.calls, dispatched + step.dispatched;
      i := i + 1;
    }
    assert ops[..|ops|] == ops;
  }
}

=== FILE: wrappers.dfy ===
/** Failure-carrying datatypes shared by the wallet session model. */
module Wrappers {

  /** An optional value; `None` stands for a field the provider leaves `undefined`. */
  datatype Option<+T> = None | Some(value: T)

  /** The outcome of an operation that returns a value or raises an error. */
  datatype Result<+R, +E> = Success(value: R) | Failure(error: E)

  /** The outcome of a check that either passes or fails with an error. */
  datatype Outcome<+E> = Pass | Fail(error: E)
}
